=== FILE: README.md ===
# connect us — reply thread model

A Dafny model of the comment thread of the connect us community site, a
React client over a remote HTTP API. The model covers three pieces of logic:

- **Reply loading on the post page.** The API returns replies already
  nested, and a reply's `children` may be `null`. `buildTree` replaces every
  `null` `children` with `[]`, at every depth, and copies all other fields
  unchanged. It never re-links replies from `parentId`.
  `toReplyProps` then turns each normalised top-level reply into props for
  the `Reply` component. The root is marked `topLevel`. Each direct reply is
  marked nested and gets no children of its own, so replies to a nested
  reply (a top-level reply's grandchildren) are never shown.
- **Posting a top-level comment on the post page.** The page's comment form
  posts through its `handleSubmit` alone, which rejects text that is blank
  after `trim()`. The route `action` is a separate entry point: it handles a
  POST to `/community/:postId` sent from outside the page, and rejects a
  missing or empty `reply` value. Neither sends anything when it rejects. A failed request reports the server's `message`
  when it is truthy, and a fixed fallback otherwise.
- **The per-reply composer of `Reply`.** Each reply keeps its own state:
  whether its form is open, the draft text, and an error. Pressing Reply
  while logged out sets a login-required error. Pressing it while logged in
  opens or closes the form and clears the error. Submitting first clears
  the error. On success the form closes, the draft is emptied and the page
  reloads. On failure the message is shown and the draft is kept for a
  retry. Children are mounted recursively. Each child is forced to
  `topLevel = false` and given the parent's `postId`. The Reply button is
  shown at every depth.

Files:

- `wrappers.dfy` defines `Option`.
- `decimal.dfy` defines JavaScript's `String(n)` for integer ids.
- `reply_tree.dfy` holds the `PostReplies` module: records, `buildTree` and the shape lemmas.
- `reply_props.dfy` holds the `PostPageProps` module: `toReplyProps` and the truncation lemmas.
- `request.dfy` holds the `Request` module: the abstract request outcome and message selection.
- `post_submit.dfy` holds the `PostPageSubmit` module: `action` and `handleSubmit` of the post page.
- `composer.dfy` holds the `ReplyComposer` module: the Reply composer state machine.
- `reply_view.dfy` holds the `ReplyView` module: the recursive mounting of `Reply`.

Parameters stand in for what the code gets from its surroundings:

- the login flag `isLoggedIn`;
- the outcome of each POST: `Ok`, `Fail` with an optional body `message`, or `Threw` with the thrown value;
- the post's id and the avatar image;
- the locale date formatter used for `timestamp`.

A page reload is reported as a boolean.

The model follows the code as written:

- Replies carry no depth tag, and `Reply` draws its Reply button at every depth.
- Nothing in `Reply` depends on `topLevel`. `Toggle`, `HandleSubmit` and `Step` take no `topLevel` input.
- `Reply`'s `handleSubmit` checks neither the login nor blank text. Only pressing Reply checks the login. The browser's `required` check on the textarea refuses only an empty draft.
- The post page shows only two levels, because `toReplyProps` drops grandchildren.

## Model

| member | source | states |
|---|---|---|
| PostReplies.BuildTree | app/routes/community/pages/post-page.tsx:91-94 | a null `children` becomes `[]`; the fields are kept; the number of children is kept |
| PostReplies.BuildReplies | app/routes/community/pages/post-page.tsx:96 | the normalised list has the replies' length and order, with each record's fields kept |
| PostReplies.Embed | app/routes/community/pages/post-page.tsx:56 | a normalised tree, read as an API record, has no null `children` at any depth |
| PostReplies.BuildTreeShape | app/routes/community/pages/post-page.tsx:91-94 | at every node, normalisation keeps every non-children field and the number and order of children |
| PostReplies.BuildTreeUnique | app/routes/community/pages/post-page.tsx:91-94 | any normalised tree with the record's shape is the one `buildTree` returns, so it only fills nulls and never re-links |
| PostReplies.BuildTreeIdempotent | app/routes/community/pages/post-page.tsx:91-94 | a record with no null `children` anywhere is returned unchanged |
| PostReplies.BuildTreeOfTree | app/routes/community/pages/post-page.tsx:91-94 | normalising an already normalised tree returns that tree |
| PostReplies.ShapeSize | app/routes/community/pages/post-page.tsx:91-94 | two trees of the same shape have the same node count |
| PostReplies.ShapeWidth | app/routes/community/pages/post-page.tsx:91-94 | two trees of the same shape have the same node count at every depth |
| PostReplies.BuildTreeCounts | app/routes/community/pages/post-page.tsx:91-94 | normalisation keeps the total node count and the count at every depth |
| PostReplies.BuildRepliesShape | app/routes/community/pages/post-page.tsx:96 | every element of the loader's list has its input's shape and no null at any depth |
| PostPageProps.ToReplyProps | app/routes/community/pages/post-page.tsx:169-187 | the root is top-level and shows its own author, text, formatted date, avatar, id string and the post's id string; each child, in order, is nested, has empty children, and shows the same fields of its own reply |
| PostPageProps.ToReplyPropsIsPrunedProjection | app/routes/community/pages/post-page.tsx:169-187 | the props equal the full projection of the tree cut below depth one |
| PostPageProps.ToReplyPropsDepth | app/routes/community/pages/post-page.tsx:174-185 | the props are at most two levels deep, and exactly two when the root has replies |
| PostPageProps.ToReplyPropsCount | app/routes/community/pages/post-page.tsx:177-186 | the props hold 1 + (number of direct replies) nodes, never more than the tree, and as many only when no direct reply has replies |
| PostPageProps.ToReplyPropsExact | app/routes/community/pages/post-page.tsx:177-186 | the props equal the untruncated projection exactly when there are no grandchildren |
| PostPageProps.ProjectCount | app/routes/community/pages/post-page.tsx:169-187 | the untruncated projection keeps every node, so all loss comes from the cut |
| PostPageProps.EmbedSizeOne | app/routes/community/pages/post-page.tsx:56 | a normalised tree is a single node exactly when it has no children |
| PostPageProps.ToReplyPropsKeysDistinct | app/routes/community/pages/post-page.tsx:176-184 | direct replies with distinct ids get distinct `replyId` strings |
| Decimal.NatToString | app/routes/community/pages/post-page.tsx:176 | the decimal digits of a natural number, with no leading zero |
| Decimal.NatToStringRoundTrip | app/routes/community/pages/post-page.tsx:176 | the printed digits denote the number printed |
| Decimal.IntToString | app/routes/community/pages/post-page.tsx:175-176 | a minus sign exactly for negative numbers, followed by decimal digits with no leading zero unless the number is zero |
| Decimal.IntToStringRoundTrip | app/routes/community/pages/post-page.tsx:175-176 | parsing the printed id gives the id back |
| Decimal.IntToStringInjective | app/routes/community/pages/post-page.tsx:184 | distinct ids print as distinct strings |
| Request.ServerMessage | app/routes/community/pages/post-page.tsx:127 | `message || fallback`: the body's message when truthy, otherwise the fallback; never empty |
| Request.FailureMessage | app/routes/community/pages/post-page.tsx:125-134 | a non-OK response reports its truthy `message`, otherwise the fallback; a thrown Error reports its own message; any other thrown value reports the fallback |
| PostPageSubmit.LeadingSpaces | app/routes/community/pages/post-page.tsx:148 | the length of the longest prefix made only of JavaScript white space |
| PostPageSubmit.TrailingSpaces | app/routes/community/pages/post-page.tsx:148 | the length of the longest suffix made only of JavaScript white space |
| PostPageSubmit.Trim | app/routes/community/pages/post-page.tsx:148 | `trim()` is empty exactly when the text is all white space; otherwise it is the text with exactly its leading and trailing white space removed, and it neither starts nor ends with white space |
| PostPageSubmit.Action | app/routes/community/pages/post-page.tsx:111-136 | nothing is posted exactly when the value is missing or empty, and then the empty-reply error is returned; success exactly when something was posted and the response was OK; otherwise the failure message for the outcome, whether a non-OK response or a thrown value |
| PostPageSubmit.HandleSubmit | app/routes/community/pages/post-page.tsx:145-166 | nothing is posted exactly when the text is blank, and then the empty-input alert is raised; the untrimmed text is posted otherwise; a reload is asked for exactly when there is no alert, which is exactly when something was posted and the response was OK |
| PostPageSubmit.BlankReplyPaths | app/routes/community/pages/post-page.tsx:111-166 | non-empty white-space text is posted by `action` but refused by `handleSubmit` |
| PostPageSubmit.HandleSubmitStricter | app/routes/community/pages/post-page.tsx:111-166 | whatever `handleSubmit` posts, `action` posts the same text |
| ReplyComposer.Toggle | app/routes/community/components/reply.tsx:39-46 | logged out: the form state is kept and the login-required error is set; logged in: the form state flips and the error is cleared; the draft is kept in both cases |
| ReplyComposer.Edit | app/routes/community/components/reply.tsx:114-116 | typing replaces the draft and changes nothing else |
| ReplyComposer.BeginSubmit | app/routes/community/components/reply.tsx:50 | before the outcome is known, the error is cleared to null and the form and draft are kept |
| ReplyComposer.HandleSubmit | app/routes/community/components/reply.tsx:48-80 | the draft is what is posted; success closes the form, empties the draft and asks for a reload; failure keeps the form and draft and shows the failure message |
| ReplyComposer.ToggleTwice | app/routes/community/components/reply.tsx:44-45 | two presses while logged in restore the form state and keep the draft |
| ReplyComposer.LoggedOutNeverReplies | app/routes/community/components/reply.tsx:39-43 | starting from a closed form, a logged-out user never gets the form open, whatever the events |
| ReplyComposer.RetryResendsDraft | app/routes/community/components/reply.tsx:75-79 | after a failed submit the form can still be submitted, and a retry posts the same draft |
| ReplyComposer.NeverPostsEmpty | app/routes/community/components/reply.tsx:107-124 | no run of events posts an empty draft; this carries the textarea's `required` check through every run, since `handleSubmit` checks nothing itself |
| ReplyComposer.LoggedOutNeverPosts | app/routes/community/components/reply.tsx:39-80 | starting from a closed form, a logged-out user posts nothing |
| ReplyComposer.FreshLoggedOut | app/routes/community/components/reply.tsx:34-46 | a freshly mounted Reply, used by a logged-out user, never opens its form and posts nothing |
| ReplyView.ChildProps | app/routes/community/components/reply.tsx:129-134 | a child is mounted as nested with the parent's `postId`, and no other prop changes |
| ReplyView.MountAs | app/routes/community/components/reply.tsx:24-140 | the instance gets the props with the given flag and post id; its children, in order, are the given children exactly when there are any |
| ReplyView.Mount | app/routes/community/components/reply.tsx:24-33 | the root instance receives its props unchanged |
| ReplyView.MountAsNested | app/routes/community/components/reply.tsx:126-135 | every descendant, at any depth, is nested and carries the given post id |
| ReplyView.MountNested | app/routes/community/components/reply.tsx:126-135 | every descendant of a mounted Reply is nested and carries the root's `postId` |
| ReplyView.MountAsPassesThrough | app/routes/community/components/reply.tsx:126-135 | at every depth, each mounted child receives its own props record with only `topLevel` forced to false and `postId` replaced, and its children are mounted exactly when it has any |
| ReplyView.MountAsCount | app/routes/community/components/reply.tsx:126-135 | one instance is mounted per props record |
| ReplyView.PostPageMounts | app/routes/community/components/reply.tsx:126-135 | on the post page, a top-level reply mounts itself and its direct replies only, never more than its tree holds |

## Left out

- Network and browser I/O are modelled only as the abstract outcome of each POST. This covers `fetch`, `fetchWithAuth`, the Authorization header, `localStorage` and `credentials`.
- The loader's GET requests and its error response are left out. Its 404 for a missing post is caught by its own `catch` and thrown again as a 500.
- `window.location.reload()` is reported as a flag and `alert` as the text it shows. `console.error` and `navigate` are not modelled.
- `new Date(..).toLocaleDateString()` depends on the locale. It is a `formatDate` parameter.
- The session context in `app/contexts/auth-context.tsx` is not part of this model. `isLoggedIn` is a parameter.
- The post page shows its comment form only to logged-in users. This choice of what to render is not modelled.
- The markup, styling, avatar fallbacks and breadcrumbs are not modelled.
- The login, join and submit-post pages are not modelled. Neither are navigation, the community list, post cards or the route table.
- `Decimal.IntToString`: JavaScript prints numbers of 10^21 and more in exponent form. The model prints every integer in full, and ids are taken as integers.
- `PostPageSubmit.Action`: a file uploaded under the `reply` field is not modelled. The page's own form never reaches `action`, since it posts through `handleSubmit`; only an outside POST to the route does, and the model takes its `reply` value to be text.
- `Request.FailureMessage`: a body `message` that is not a string is not modelled. The model treats it as absent or as a string.
- `ReplyComposer.HandleSubmit`: the request's result arrives asynchronously. The model settles it in the same step, so events typed while it is pending are not interleaved.

=== FILE: composer.dfy ===
/**
 * The per-reply composer of the Reply component: whether the reply form is
 * open, the draft text, and the error shown under the reply. Whether the
 * user is logged in is a parameter; the POST's result is an abstract
 * outcome; the page reload after a success is reported as a flag.
 */
module ReplyComposer {
  import opened Wrappers
  import opened Request

  /** Shown when a logged-out user presses Reply. */
  const LoginRequiredMessage := "로그인이 필요합니다."

  /** The component's three `useState` cells. */
  datatype Composer = Composer(replying: bool, replyContent: string, error: Option<string>)

  /** The state a freshly mounted Reply starts in. */
  const Initial := Composer(false, "", None)

  /** The error box is rendered only for a truthy error. */
  predicate ErrorShown(s: Composer) {
    s.error.Some? && s.error.value != ""
  }

  /** `toggleReplying`: open or close the form, or ask a logged-out user to log in. */
  function Toggle(s: Composer, isLoggedIn: bool): (s': Composer)
    ensures s'.replyContent == s.replyContent
    ensures !isLoggedIn ==> s'.replying == s.replying && s'.error == Some(LoginRequiredMessage)
    ensures isLoggedIn ==> s'.replying != s.replying && s'.error.None?
  {
    if !isLoggedIn then s.(error := Some(LoginRequiredMessage))
    else s.(replying := !s.replying, error := None)
  }

  /** The textarea's `onChange`: the draft becomes the field's text. */
  function Edit(s: Composer, text: string): (s': Composer)
    ensures s'.replyContent == text
    ensures s'.replying == s.replying && s'.error == s.error
  {
    s.(replyContent := text)
  }

  /** The first effect of `handleSubmit`, before the request: clear the error. */
  function BeginSubmit(s: Composer): (s': Composer)
    ensures s'.error.None?
    ensures s'.replying == s.replying && s'.replyContent == s.replyContent
  {
    s.(error := None)
  }

  /** The state once the request has settled, and whether a reload was asked for. */
  datatype Settled = Settled(state: Composer, reload: bool)

  /** The effects of `handleSubmit` once the request's outcome is known. */
  function Settle(s: Composer, outcome: Outcome): Settled {
    if outcome.Ok? then Settled(s.(replying := false, replyContent := ""), true)
    else Settled(s.(error := Some(Caught(Raised(outcome)))), false)
  }

  /** One run of `handleSubmit`: the text it posted and where it left the composer. */
  datatype ReplySubmit = ReplySubmit(sent: string, state: Composer, reload: bool)

  /** `handleSubmit`, with the POST's result given as `outcome`. */
  function HandleSubmit(s: Composer, outcome: Outcome): (r: ReplySubmit)
    ensures r.sent == s.replyContent
    ensures r.reload <==> outcome.Ok?
    ensures outcome.Ok? ==> !r.state.replying && r.state.replyContent == "" && r.state.error.None?
    ensures !outcome.Ok? ==>
      && r.state.replying == s.replying
      && r.state.replyContent == s.replyContent
      && r.state.error == Some(FailureMessage(outcome))
    ensures outcome.Fail? ==> ErrorShown(r.state)
  {
    var started := BeginSubmit(s);
    var settled := Settle(started, outcome);
    ReplySubmit(started.replyContent, settled.state, settled.reload)
  }

  /**
   * The form exists only while `replying`, and its `required` textarea
   * keeps the browser from submitting an empty draft.
   */
  predicate CanSubmit(s: Composer) {
    s.replying && s.replyContent != ""
  }

  /** What the user can do to one Reply. */
  datatype Event = PressReply | Type(text: string) | Submit(outcome: Outcome)

  function Step(s: Composer, e: Event, isLoggedIn: bool): Composer {
    match e
    case PressReply => Toggle(s, isLoggedIn)
    case Type(text) => Edit(s, text)
    case Submit(outcome) => if CanSubmit(s) then HandleSubmit(s, outcome).state else s
  }

  function Run(s: Composer, events: seq<Event>, isLoggedIn: bool): Composer
    decreases |events|
  {
    if events == [] then s else Run(Step(s, events[0], isLoggedIn), events[1..], isLoggedIn)
  }

  /** Two presses of Reply while logged in restore the form and keep the draft. */
  lemma ToggleTwice(s: Composer)
    ensures Toggle(Toggle(s, true), true) == s.(error := None)
  {
  }

  /** A logged-out user never gets the reply form open, whatever they do. */
  lemma {:induction false} LoggedOutNeverReplies(s: Composer, events: seq<Event>)
    requires !s.replying
    ensures !Run(s, events, false).replying
    decreases |events|
  {
    if events != [] {
      LoggedOutNeverReplies(Step(s, events[0], false), events[1..]);
    }
  }

  /** After a failed submit the form stays open and a retry posts the same draft. */
  lemma RetryResendsDraft(s: Composer, first: Outcome, second: Outcome)
    requires CanSubmit(s) && !first.Ok?
    ensures CanSubmit(HandleSubmit(s, first).state)
    ensures HandleSubmit(HandleSubmit(s, first).state, second).sent == s.replyContent
  {
  }

  /** The reply texts a run of events posts, in order. */
  function Posts(s: Composer, events: seq<Event>, isLoggedIn: bool): seq<string>
    decreases |events|
  {
    if events == [] then []
    else
      var sent := if events[0].Submit? && CanSubmit(s) then [s.replyContent] else [];
      sent + Posts(Step(s, events[0], isLoggedIn), events[1..], isLoggedIn)
  }

  /**
   * A Reply never posts an empty draft. This only carries the textarea's
   * `required` check, assumed in `CanSubmit`, through every run of events;
   * `handleSubmit` itself checks nothing.
   */
  lemma {:induction false} NeverPostsEmpty(s: Composer, events: seq<Event>, isLoggedIn: bool)
    ensures forall i :: 0 <= i < |Posts(s, events, isLoggedIn)| ==> Posts(s, events, isLoggedIn)[i] != ""
    decreases |events|
  {
    if events != [] {
      NeverPostsEmpty(Step(s, events[0], isLoggedIn), events[1..], isLoggedIn);
    }
  }

  /**
   * Although `handleSubmit` never checks the login, a logged-out user starting from a
   * closed form never posts anything.
   */
  lemma {:induction false} LoggedOutNeverPosts(s: Composer, events: seq<Event>)
    requires !s.replying
    ensures Posts(s, events, false) == []
    decreases |events|
  {
    if events != [] {
      LoggedOutNeverPosts(Step(s, events[0], false), events[1..]);
    }
  }

  /** A freshly mounted Reply, used while logged out, never opens its form and posts nothing. */
  lemma FreshLoggedOut(events: seq<Event>)
    ensures !Run(Initial, events, false).replying
    ensures Posts(Initial, events, false) == []
  {
    LoggedOutNeverReplies(Initial, events);
    LoggedOutNeverPosts(Initial, events);
  }
}

=== FILE: decimal.dfy ===
/**
 * JavaScript's `String(n)` for an integer-valued number: an optional minus
 * sign followed by the decimal digits of |n|, with no leading zero.
 */
module Decimal {

  predicate IsDigit(c: char) {
    '0' <= c <= '9'
  }

  predicate AllDigits(s: string) {
    forall i :: 0 <= i < |s| ==> IsDigit(s[i])
  }

  function DigitChar(d: nat): (c: char)
    requires d < 10
    ensures IsDigit(c)
    ensures c as int - '0' as int == d
  {
    ('0' as int + d) as char
  }

  /** Decimal digits of `n`, most significant first. */
  function NatToString(n: nat): (s: string)
    ensures |s| >= 1 && AllDigits(s)
    ensures s[0] == '0' ==> n == 0 && s == "0"
    decreases n
  {
    if n < 10 then [DigitChar(n)] else NatToString(n / 10) + [DigitChar(n % 10)]
  }

  /** The number a string of decimal digits denotes. */
  function DigitsValue(s: string): nat
    requires AllDigits(s)
  {
    if s == [] then 0
    else DigitsValue(s[..|s| - 1]) * 10 + (s[|s| - 1] as int - '0' as int)
  }

  function IntToString(n: int): (s: string)
    ensures |s| >= 1
    ensures n < 0 <==> s[0] == '-'
    ensures var d := if n < 0 then s[1..] else s;
            |d| >= 1 && AllDigits(d) && (d[0] == '0' ==> d == "0")
  {
    if n < 0 then "-" + NatToString(-n) else NatToString(n)
  }

  /** The integer a string produced by IntToString denotes. */
  function ParseInt(s: string): int
    requires |s| >= 1
    requires s[0] == '-' ==> AllDigits(s[1..])
    requires s[0] != '-' ==> AllDigits(s)
  {
    if s[0] == '-' then -(DigitsValue(s[1..]) as int) else DigitsValue(s)
  }

  lemma {:induction false} NatToStringRoundTrip(n: nat)
    ensures DigitsValue(NatToString(n)) == n
    decreases n
  {
    if n >= 10 {
      var s := NatToString(n);
      NatToStringRoundTrip(n / 10);
      assert s[..|s| - 1] == NatToString(n / 10);
    }
  }

  /** Parsing undoes printing, for every integer. */
  lemma IntToStringRoundTrip(n: int)
    ensures var s := IntToString(n);
            (s[0] == '-' ==> AllDigits(s[1..])) && (s[0] != '-' ==> AllDigits(s))
            && ParseInt(s) == n
  {
    if n < 0 {
      NatToStringRoundTrip(-n);
      assert IntToString(n)[1..] == NatToString(-n);
    } else {
      NatToStringRoundTrip(n);
    }
  }

  /** Distinct ids print as distinct strings (React keys stay distinct). */
  lemma IntToStringInjective(a: int, b: int)
    ensures IntToString(a) == IntToString(b) ==> a == b
  {
    IntToStringRoundTrip(a);
    IntToStringRoundTrip(b);
  }
}

=== FILE: post_submit.dfy ===
/**
 * Comment submission on the post page. The page's comment form posts through
 * its `handleSubmit` alone, which rejects text that is blank after `trim()`.
 * The route `action` is a separate entry point for a POST to the route sent
 * from outside the page; it rejects a missing or empty `reply` value. Both
 * reject before any request is made, and both report a failed request with
 * the server's message or the fixed fallback.
 */
module PostPageSubmit {
  import opened Wrappers
  import opened Request

  /** The `action`'s message for a missing or empty reply. */
  const EmptyReplyMessage := "댓글 내용을 입력해주세요."

  /** The `handleSubmit` message for blank input. */
  const EmptyInputMessage := "댓글을 입력해주세요."

  /**
   * White space as JavaScript's `String.prototype.trim` strips it: the
   * WhiteSpace and LineTerminator characters of ECMAScript.
   */
  predicate IsSpace(c: char) {
    || c == '\t' || c == '\n' || c == '\U{000B}' || c == '\U{000C}' || c == '\r'
    || c == ' ' || c == '\U{00A0}' || c == '\U{1680}'
    || ('\U{2000}' <= c <= '\U{200A}')
    || c == '\U{2028}' || c == '\U{2029}' || c == '\U{202F}' || c == '\U{205F}'
    || c == '\U{3000}' || c == '\U{FEFF}'
  }

  predicate Blank(s: string) {
    forall i :: 0 <= i < |s| ==> IsSpace(s[i])
  }

  /** Length of the longest all-space prefix of `s`. */
  function LeadingSpaces(s: string): (k: nat)
    ensures k <= |s|
    ensures forall i :: 0 <= i < k ==> IsSpace(s[i])
    ensures k < |s| ==> !IsSpace(s[k])
  {
    if s != [] && IsSpace(s[0]) then 1 + LeadingSpaces(s[1..]) else 0
  }

  /** Length of the longest all-space suffix of `s`. */
  function TrailingSpaces(s: string): (k: nat)
    ensures k <= |s|
    ensures forall i :: |s| - k <= i < |s| ==> IsSpace(s[i])
    ensures k < |s| ==> !IsSpace(s[|s| - k - 1])
  {
    if s != [] && IsSpace(s[|s| - 1]) then 1 + TrailingSpaces(s[..|s| - 1]) else 0
  }

  /** `s.trim()`: `s` without its leading and trailing white space. */
  function Trim(s: string): (r: string)
    ensures r == "" <==> Blank(s)
    ensures r != "" ==> !IsSpace(r[0]) && !IsSpace(r[|r| - 1])
    ensures LeadingSpaces(s) + |r| <= |s| && r == s[LeadingSpaces(s)..LeadingSpaces(s) + |r|]
    ensures Blank(s[LeadingSpaces(s) + |r|..])
  {
    var t := s[LeadingSpaces(s)..];
    t[..|t| - TrailingSpaces(t)]
  }

  /** `formData.get("reply")`: absent, or the submitted text. */
  datatype FormValue = Missing | Text(value: string)

  /** `!reply`: a missing value and the empty string are falsy. */
  predicate Falsy(v: FormValue) {
    v.Missing? || v.value == ""
  }

  datatype ActionResult = Posted | ActionError(error: string)

  /** What `action` returned, and the reply text it posted, if it posted. */
  datatype ActionRun = ActionRun(posted: Option<string>, result: ActionResult)

  /** The route `action`, with the POST's result given as `outcome`. */
  function Action(entry: FormValue, outcome: Outcome): (r: ActionRun)
    ensures r.posted.None? <==> Falsy(entry)
    ensures r.posted.Some? ==> r.posted.value == entry.value
    ensures Falsy(entry) ==> r.result == ActionError(EmptyReplyMessage)
    ensures r.result.Posted? <==> !Falsy(entry) && outcome.Ok?
    ensures !Falsy(entry) && !outcome.Ok? ==> r.result == ActionError(FailureMessage(outcome))
  {
    if Falsy(entry) then ActionRun(None, ActionError(EmptyReplyMessage))
    else if outcome.Ok? then ActionRun(Some(entry.value), Posted)
    else ActionRun(Some(entry.value), ActionError(Caught(Raised(outcome))))
  }

  /**
   * What `handleSubmit` did: the reply text it posted, if any, the alert it
   * raised, if any, and whether it asked for a page reload.
   */
  datatype SubmitRun = SubmitRun(posted: Option<string>, alert: Option<string>, reload: bool)

  /** The form's `handleSubmit`, with the POST's result given as `outcome`. */
  function HandleSubmit(content: string, outcome: Outcome): (r: SubmitRun)
    ensures r.posted.None? <==> Blank(content)
    ensures r.posted.Some? ==> r.posted.value == content
    ensures Blank(content) ==> r.alert == Some(EmptyInputMessage)
    ensures r.reload <==> r.alert.None?
    ensures r.reload <==> !Blank(content) && outcome.Ok?
    ensures !Blank(content) && !outcome.Ok? ==> r.alert == Some(FailureMessage(outcome))
  {
    if Trim(content) == "" then
      SubmitRun(None, Some(Caught(ErrorObject(EmptyInputMessage))), false)
    else if outcome.Ok? then
      SubmitRun(Some(content), None, true)
    else
      SubmitRun(Some(content), Some(Caught(Raised(outcome))), false)
  }

  /**
   * The two entry points disagree on blank text: `action` posts white space that
   * `handleSubmit` refuses, since only the latter trims. The two are never
   * reached from the same form: the page's form goes to `handleSubmit` only.
   */
  lemma BlankReplyPaths(s: string, outcome: Outcome)
    requires s != "" && Blank(s)
    ensures Action(Text(s), outcome).posted == Some(s)
    ensures HandleSubmit(s, outcome).posted.None?
  {
  }

  /** Whenever `handleSubmit` posts, `action` would have posted the same text. */
  lemma HandleSubmitStricter(content: string, outcome: Outcome)
    ensures HandleSubmit(content, outcome).posted.Some? ==>
      Action(Text(content), outcome).posted == HandleSubmit(content, outcome).posted
  {
  }
}

=== FILE: reply_props.dfy ===
/**
 * The post page's `toReplyProps`: a normalised reply becomes the props of a
 * top-level Reply component whose children are its direct replies, each
 * marked nested and given no children of its own. Replies to a nested reply
 * (grandchildren) are therefore not passed on.
 */
module PostPageProps {
  import opened PostReplies
  import Decimal

  /** The Reply component's props (`ReplyProps`). */
  datatype ReplyProps = ReplyProps(
    username: string,
    avatarUrl: string,
    content: string,
    timestamp: string,
    topLevel: bool,
    postId: string,
    replyId: string,
    children: PropsChildren)

  /** The optional `children?` prop. */
  datatype PropsChildren = Absent | Given(items: seq<ReplyProps>)

  /**
   * What the page supplies around each reply: the post's id, the avatar
   * image every reply shows, and the locale-dependent date formatter.
   */
  datatype PageContext = PageContext(postId: int, avatar: string, formatDate: string -> string)

  /** The children a props value carries; an absent prop carries none. */
  function Subs(p: ReplyProps): (cs: seq<ReplyProps>)
    ensures forall i :: 0 <= i < |cs| ==> cs[i] < p
  {
    match p.children
    case Absent => []
    case Given(cs) => cs
  }

  /** Number of props records in `p`, counting `p` itself. */
  function PropsSize(p: ReplyProps): nat {
    1 + Sum(seq(|Subs(p)|, i requires 0 <= i < |Subs(p)| => PropsSize(Subs(p)[i])))
  }

  /** `p` has at most `k` levels of nesting (a leaf has one). */
  predicate DepthAtMost(p: ReplyProps, k: nat) {
    k > 0 && forall i :: 0 <= i < |Subs(p)| ==> DepthAtMost(Subs(p)[i], k - 1)
  }

  /** The props of one reply with the given nesting flag and children. */
  function NodeProps(f: ReplyFields, topLevel: bool, children: seq<ReplyProps>, ctx: PageContext): ReplyProps {
    ReplyProps(
      f.userName,
      ctx.avatar,
      f.reply,
      ctx.formatDate(f.createdAt),
      topLevel,
      Decimal.IntToString(ctx.postId),
      Decimal.IntToString(f.postReplyId),
      Given(children))
  }

  /**
   * `p` shows the reply `f` on the post of `ctx`: its author, text, formatted
   * date, the shared avatar, the post's id string and the reply's id string.
   */
  predicate Shows(p: ReplyProps, f: ReplyFields, ctx: PageContext) {
    && p.username == f.userName
    && p.content == f.reply
    && p.timestamp == ctx.formatDate(f.createdAt)
    && p.avatarUrl == ctx.avatar
    && p.postId == Decimal.IntToString(ctx.postId)
    && p.replyId == Decimal.IntToString(f.postReplyId)
  }

  /** `toReplyProps` as written on the post page. */
  function ToReplyProps(t: ReplyTree, ctx: PageContext): (p: ReplyProps)
    ensures p.topLevel && p.children.Given?
    ensures Shows(p, t.fields, ctx)
    ensures |Subs(p)| == |t.children|
    ensures forall i :: 0 <= i < |t.children| ==>
      && !Subs(p)[i].topLevel
      && Subs(p)[i].children == Given([])
      && Shows(Subs(p)[i], t.children[i].fields, ctx)
  {
    NodeProps(t.fields, true,
      seq(|t.children|, i requires 0 <= i < |t.children| => NodeProps(t.children[i].fields, false, [], ctx)),
      ctx)
  }

  /**
   * The untruncated projection: every node of the tree becomes props, the
   * root with the given flag and every descendant nested.
   */
  function Project(t: ReplyTree, topLevel: bool, ctx: PageContext): (p: ReplyProps)
    ensures p.topLevel == topLevel
    ensures |Subs(p)| == |t.children|
  {
    NodeProps(t.fields, topLevel,
      seq(|t.children|, i requires 0 <= i < |t.children| => Project(t.children[i], false, ctx)),
      ctx)
  }

  /** The tree cut below depth `k`: nodes deeper than `k` are dropped. */
  function Prune(t: ReplyTree, k: nat): (u: ReplyTree)
    ensures u.fields == t.fields
    ensures |u.children| == if k == 0 then 0 else |t.children|
  {
    if k == 0 then ReplyTree(t.fields, [])
    else ReplyTree(t.fields, seq(|t.children|, i requires 0 <= i < |t.children| => Prune(t.children[i], k - 1)))
  }

  /** The page's props are the full projection of the tree cut at depth one. */
  lemma ToReplyPropsIsPrunedProjection(t: ReplyTree, ctx: PageContext)
    ensures ToReplyProps(t, ctx) == Project(Prune(t, 1), true, ctx)
  {
  }

  /** The page's props are at most two levels deep, whatever the tree's depth. */
  lemma ToReplyPropsDepth(t: ReplyTree, ctx: PageContext)
    ensures DepthAtMost(ToReplyProps(t, ctx), 2)
    ensures |t.children| > 0 ==> !DepthAtMost(ToReplyProps(t, ctx), 1)
  {
    var p := ToReplyProps(t, ctx);
    forall i | 0 <= i < |Subs(p)|
      ensures DepthAtMost(Subs(p)[i], 1)
    {
      assert Subs(Subs(p)[i]) == [];
    }
    if |t.children| > 0 {
      assert !DepthAtMost(Subs(p)[0], 0);
    }
  }

  lemma {:induction false} SumAtLeastLength(xs: seq<nat>)
    requires forall i :: 0 <= i < |xs| ==> xs[i] >= 1
    ensures Sum(xs) >= |xs|
    ensures Sum(xs) == |xs| <==> forall i :: 0 <= i < |xs| ==> xs[i] == 1
  {
    if xs != [] {
      SumAtLeastLength(xs[1..]);
      assert forall i :: 1 <= i < |xs| ==> xs[i] == xs[1..][i - 1];
    }
  }

  /** A normalised tree is a single node exactly when it has no children. */
  lemma EmbedSizeOne(t: ReplyTree)
    ensures Size(Embed(t)) >= 1
    ensures Size(Embed(t)) == 1 <==> t.children == []
  {
  }

  /**
   * The page's props hold the root and its direct replies only: no more
   * nodes than the tree, and exactly as many when no direct reply has
   * replies of its own.
   */
  lemma ToReplyPropsCount(t: ReplyTree, ctx: PageContext)
    ensures PropsSize(ToReplyProps(t, ctx)) == 1 + |t.children|
    ensures PropsSize(ToReplyProps(t, ctx)) <= Size(Embed(t))
    ensures PropsSize(ToReplyProps(t, ctx)) == Size(Embed(t))
        <==> forall i :: 0 <= i < |t.children| ==> t.children[i].children == []
  {
    var p := ToReplyProps(t, ctx);
    var ps := seq(|Subs(p)|, i requires 0 <= i < |Subs(p)| => PropsSize(Subs(p)[i]));
    forall i | 0 <= i < |ps|
      ensures ps[i] == 1
    {
      assert Subs(Subs(p)[i]) == [];
      assert PropsSize(Subs(p)[i]) == 1 + Sum([]);
    }
    SumAtLeastLength(ps);
    var e := Embed(t);
    var xs := seq(|Kids(e)|, i requires 0 <= i < |Kids(e)| => Size(Kids(e)[i]));
    forall i | 0 <= i < |xs|
      ensures xs[i] >= 1 && (xs[i] == 1 <==> t.children[i].children == [])
    {
      assert Kids(e)[i] == Embed(t.children[i]);
      EmbedSizeOne(t.children[i]);
    }
    SumAtLeastLength(xs);
  }

  /** The untruncated projection keeps every node. */
  lemma {:induction false} ProjectCount(t: ReplyTree, topLevel: bool, ctx: PageContext)
    ensures PropsSize(Project(t, topLevel, ctx)) == Size(Embed(t))
  {
    var p := Project(t, topLevel, ctx);
    var e := Embed(t);
    var ps := seq(|Subs(p)|, i requires 0 <= i < |Subs(p)| => PropsSize(Subs(p)[i]));
    var xs := seq(|Kids(e)|, i requires 0 <= i < |Kids(e)| => Size(Kids(e)[i]));
    forall i | 0 <= i < |ps|
      ensures ps[i] == xs[i]
    {
      assert Kids(e)[i] == Embed(t.children[i]);
      ProjectCount(t.children[i], false, ctx);
    }
    SumPointwise(ps, xs);
  }

  /**
   * The page's props show the whole tree exactly when no direct reply has
   * replies of its own: grandchildren are all that is lost.
   */
  lemma ToReplyPropsExact(t: ReplyTree, ctx: PageContext)
    ensures ToReplyProps(t, ctx) == Project(t, true, ctx)
        <==> forall i :: 0 <= i < |t.children| ==> t.children[i].children == []
  {
  }

  /** Replies with distinct ids get distinct `replyId` strings (React keys). */
  lemma ToReplyPropsKeysDistinct(t: ReplyTree, ctx: PageContext, i: nat, j: nat)
    requires i < j < |t.children|
    requires t.children[i].fields.postReplyId != t.children[j].fields.postReplyId
    ensures Subs(ToReplyProps(t, ctx))[i].replyId != Subs(ToReplyProps(t, ctx))[j].replyId
  {
    Decimal.IntToStringInjective(t.children[i].fields.postReplyId, t.children[j].fields.postReplyId);
  }
}

=== FILE: reply_tree.dfy ===
/**
 * The post page's reply loader: the API returns replies already nested, with
 * `children` possibly null; `buildTree` replaces every null `children` by an
 * empty list, recursively, and copies every other field unchanged. It never
 * re-links nodes from `parentId`.
 */
module PostReplies {
  import opened Wrappers

  /** Every field of an API reply record except `children`. */
  datatype ReplyFields = ReplyFields(
    postReplyId: int,
    postId: int,
    parentId: Option<int>,
    userId: int,
    userName: string,
    reply: string,
    createdAt: string,
    updatedAt: string)

  /** A reply as the API sends it (`PostReply`). */
  datatype PostReply = PostReply(fields: ReplyFields, children: Children)

  /** The wire `children` field: `null`, or a list of replies. */
  datatype Children = Null | Items(items: seq<PostReply>)

  /** A normalised reply (`ReplyTree`): `children` is always a list. */
  datatype ReplyTree = ReplyTree(fields: ReplyFields, children: seq<ReplyTree>)

  /** The children of a wire record, reading `null` as none. */
  function Kids(r: PostReply): (cs: seq<PostReply>)
    ensures forall i :: 0 <= i < |cs| ==> cs[i] < r
  {
    match r.children
    case Null => []
    case Items(cs) => cs
  }

  function Sum(xs: seq<nat>): nat {
    if xs == [] then 0 else xs[0] + Sum(xs[1..])
  }

  /** Number of nodes of the tree rooted at `r`. */
  function Size(r: PostReply): nat {
    1 + Sum(seq(|Kids(r)|, i requires 0 <= i < |Kids(r)| => Size(Kids(r)[i])))
  }

  /** Number of nodes at depth `d` below `r` (the root alone is depth 0). */
  function Width(r: PostReply, d: nat): nat {
    if d == 0 then 1
    else Sum(seq(|Kids(r)|, i requires 0 <= i < |Kids(r)| => Width(Kids(r)[i], d - 1)))
  }

  /** No node anywhere in the tree has a null `children`. */
  predicate NoNull(r: PostReply) {
    match r.children
    case Null => false
    case Items(cs) => forall i :: 0 <= i < |cs| ==> NoNull(cs[i])
  }

  /**
   * Same fields at every node and the same number of children, in the same
   * order, at every node; a null `children` and an empty list look alike.
   */
  predicate SameShape(p: PostReply, q: PostReply) {
    && p.fields == q.fields
    && |Kids(p)| == |Kids(q)|
    && forall i :: 0 <= i < |Kids(p)| ==> SameShape(Kids(p)[i], Kids(q)[i])
  }

  /** `buildTree`: fill every null `children` with `[]`, keep the rest. */
  function BuildTree(r: PostReply): (t: ReplyTree)
    ensures t.fields == r.fields
    ensures |t.children| == |Kids(r)|
    ensures r.children.Null? ==> t.children == []
  {
    match r.children
    case Null => ReplyTree(r.fields, [])
    case Items(cs) => ReplyTree(r.fields, seq(|cs|, i requires 0 <= i < |cs| => BuildTree(cs[i])))
  }

  /** `replies.map(buildTree)`: the loader's normalisation of the reply list. */
  function BuildReplies(replies: seq<PostReply>): (ts: seq<ReplyTree>)
    ensures |ts| == |replies|
    ensures forall i :: 0 <= i < |ts| ==> ts[i].fields == replies[i].fields
  {
    seq(|replies|, i requires 0 <= i < |replies| => BuildTree(replies[i]))
  }

  /** A normalised tree read back as a wire record (`ReplyTree` is a `PostReply`). */
  function Embed(t: ReplyTree): (r: PostReply)
    ensures r.fields == t.fields
    ensures NoNull(r)
    ensures r.children.Items? && |r.children.items| == |t.children|
  {
    PostReply(t.fields, Items(seq(|t.children|, i requires 0 <= i < |t.children| => Embed(t.children[i]))))
  }

  /** Normalisation keeps the shape and every non-children field of every node. */
  lemma {:induction false} BuildTreeShape(r: PostReply)
    ensures SameShape(r, Embed(BuildTree(r)))
  {
    var e := Embed(BuildTree(r));
    forall i | 0 <= i < |Kids(r)|
      ensures SameShape(Kids(r)[i], Kids(e)[i])
    {
      BuildTreeShape(Kids(r)[i]);
    }
  }

  /** BuildTree(r) is the only normalised tree with the shape of `r`. */
  lemma {:induction false} BuildTreeUnique(r: PostReply, t: ReplyTree)
    requires SameShape(r, Embed(t))
    ensures t == BuildTree(r)
  {
    var b := BuildTree(r);
    forall i | 0 <= i < |t.children|
      ensures t.children[i] == b.children[i]
    {
      assert Kids(Embed(t))[i] == Embed(t.children[i]);
      BuildTreeUnique(Kids(r)[i], t.children[i]);
    }
  }

  /** Idempotence: a record with no null anywhere is returned unchanged. */
  lemma {:induction false} BuildTreeIdempotent(r: PostReply)
    requires NoNull(r)
    ensures Embed(BuildTree(r)) == r
  {
    var e := Embed(BuildTree(r));
    forall i | 0 <= i < |Kids(r)|
      ensures Kids(e)[i] == Kids(r)[i]
    {
      BuildTreeIdempotent(Kids(r)[i]);
    }
  }

  /** Normalising an already normalised tree gives that tree back. */
  lemma {:induction false} BuildTreeOfTree(t: ReplyTree)
    ensures BuildTree(Embed(t)) == t
  {
    var e := Embed(t);
    forall i | 0 <= i < |t.children|
      ensures BuildTree(e).children[i] == t.children[i]
    {
      BuildTreeOfTree(t.children[i]);
    }
  }

  lemma SumPointwise(xs: seq<nat>, ys: seq<nat>)
    requires |xs| == |ys|
    requires forall i :: 0 <= i < |xs| ==> xs[i] == ys[i]
    ensures Sum(xs) == Sum(ys)
  {
  }

  /** Trees of the same shape have the same number of nodes. */
  lemma {:induction false} ShapeSize(p: PostReply, q: PostReply)
    requires SameShape(p, q)
    ensures Size(p) == Size(q)
  {
    var ps := seq(|Kids(p)|, i requires 0 <= i < |Kids(p)| => Size(Kids(p)[i]));
    var qs := seq(|Kids(q)|, i requires 0 <= i < |Kids(q)| => Size(Kids(q)[i]));
    forall i | 0 <= i < |ps|
      ensures ps[i] == qs[i]
    {
      ShapeSize(Kids(p)[i], Kids(q)[i]);
    }
    SumPointwise(ps, qs);
    assert Size(p) == 1 + Sum(ps);
    assert Size(q) == 1 + Sum(qs);
  }

  /** Trees of the same shape have the same number of nodes at every depth. */
  lemma {:induction false} ShapeWidth(p: PostReply, q: PostReply, d: nat)
    requires SameShape(p, q)
    ensures Width(p, d) == Width(q, d)
  {
    if d > 0 {
      var ps := seq(|Kids(p)|, i requires 0 <= i < |Kids(p)| => Width(Kids(p)[i], d - 1));
      var qs := seq(|Kids(q)|, i requires 0 <= i < |Kids(q)| => Width(Kids(q)[i], d - 1));
      forall i | 0 <= i < |ps|
        ensures ps[i] == qs[i]
      {
        ShapeWidth(Kids(p)[i], Kids(q)[i], d - 1);
      }
      SumPointwise(ps, qs);
      assert Width(p, d) == Sum(ps);
      assert Width(q, d) == Sum(qs);
    }
  }

  /** Normalisation keeps the node count, overall and level by level. */
  lemma BuildTreeCounts(r: PostReply, d: nat)
    ensures Size(Embed(BuildTree(r))) == Size(r)
    ensures Width(Embed(BuildTree(r)), d) == Width(r, d)
  {
    BuildTreeShape(r);
    ShapeSize(r, Embed(BuildTree(r)));
    ShapeWidth(r, Embed(BuildTree(r)), d);
  }

  /** The loader's list: same length, same order, each element normalised. */
  lemma BuildRepliesShape(replies: seq<PostReply>)
    ensures forall i :: 0 <= i < |replies| ==>
      SameShape(replies[i], Embed(BuildReplies(replies)[i])) && NoNull(Embed(BuildReplies(replies)[i]))
  {
    forall i | 0 <= i < |replies|
      ensures SameShape(replies[i], Embed(BuildReplies(replies)[i]))
    {
      BuildTreeShape(replies[i]);
    }
  }
}

=== FILE: reply_view.dfy ===
/**
 * The Reply component's recursive rendering: one mounted instance per props
 * record, each child mounted with `topLevel` forced to false and the
 * parent's `postId`, every other prop passed through. The Reply button is
 * unconditional, and the composer's transitions in `ReplyComposer` take no
 * `topLevel` input, so `topLevel` gates nothing.
 */
module ReplyView {
  import opened PostReplies
  import opened PostPageProps

  /** A mounted Reply: the props it received and its mounted children. */
  datatype Instance = Instance(props: ReplyProps, children: seq<Instance>)

  /** `children && children.length > 0`. */
  predicate ChildrenShown(p: ReplyProps) {
    p.children.Given? && |p.children.items| > 0
  }

  /** `{...child, topLevel: false, postId}`: the props a child is mounted with. */
  function ChildProps(child: ReplyProps, postId: string): (c: ReplyProps)
    ensures !c.topLevel && c.postId == postId
    ensures c.(topLevel := child.topLevel, postId := child.postId) == child
  {
    child.(topLevel := false, postId := postId)
  }

  /** Mount `p` with its `topLevel` and `postId` replaced by the given ones. */
  function MountAs(p: ReplyProps, topLevel: bool, postId: string): (v: Instance)
    ensures v.props == p.(topLevel := topLevel, postId := postId)
    ensures |v.children| == if ChildrenShown(p) then |Subs(p)| else 0
    ensures forall i :: 0 <= i < |v.children| ==> v.children[i].props == ChildProps(Subs(p)[i], postId)
  {
    Instance(
      p.(topLevel := topLevel, postId := postId),
      if ChildrenShown(p) then seq(|Subs(p)|, i requires 0 <= i < |Subs(p)| => MountAs(Subs(p)[i], false, postId))
      else [])
  }

  /** `<Reply {...p} />`: mount `p` as given. */
  function Mount(p: ReplyProps): (v: Instance)
    ensures v.props == p
  {
    MountAs(p, p.topLevel, p.postId)
  }

  /** Number of mounted instances, counting `v`. */
  function InstanceCount(v: Instance): nat {
    1 + Sum(seq(|v.children|, i requires 0 <= i < |v.children| => InstanceCount(v.children[i])))
  }

  /** Every instance below `v`, at any depth, is nested and belongs to post `postId`. */
  predicate NestedBelow(v: Instance, postId: string) {
    forall i :: 0 <= i < |v.children| ==>
      && !v.children[i].props.topLevel
      && v.children[i].props.postId == postId
      && NestedBelow(v.children[i], postId)
  }

  lemma {:induction false} MountAsNested(p: ReplyProps, topLevel: bool, postId: string)
    ensures NestedBelow(MountAs(p, topLevel, postId), postId)
  {
    var v := MountAs(p, topLevel, postId);
    forall i | 0 <= i < |v.children|
      ensures NestedBelow(v.children[i], postId)
    {
      MountAsNested(Subs(p)[i], false, postId);
    }
  }

  /** Every descendant of a mounted Reply is nested and carries the root's `postId`. */
  lemma MountNested(p: ReplyProps)
    ensures NestedBelow(Mount(p), p.postId)
  {
    MountAsNested(p, p.topLevel, p.postId);
  }

  /**
   * `v` mounts the props tree `p` below its root: at every depth each child
   * instance receives the matching props record with only `topLevel` and
   * `postId` replaced, and children are mounted exactly when there are any.
   */
  predicate MountedFrom(v: Instance, p: ReplyProps, postId: string)
    decreases v
  {
    && |v.children| == (if ChildrenShown(p) then |Subs(p)| else 0)
    && forall i :: 0 <= i < |v.children| ==>
      && v.children[i].props == ChildProps(Subs(p)[i], postId)
      && MountedFrom(v.children[i], Subs(p)[i], postId)
  }

  /** Every other prop is passed through unchanged, at every depth. */
  lemma {:induction false} MountAsPassesThrough(p: ReplyProps, topLevel: bool, postId: string)
    ensures MountedFrom(MountAs(p, topLevel, postId), p, postId)
  {
    var v := MountAs(p, topLevel, postId);
    forall i | 0 <= i < |v.children|
      ensures MountedFrom(v.children[i], Subs(p)[i], postId)
    {
      MountAsPassesThrough(Subs(p)[i], false, postId);
    }
  }

  /** One instance is mounted per props record, none dropped and none added. */
  lemma {:induction false} MountAsCount(p: ReplyProps, topLevel: bool, postId: string)
    ensures InstanceCount(MountAs(p, topLevel, postId)) == PropsSize(p)
  {
    var v := MountAs(p, topLevel, postId);
    var vs := seq(|v.children|, i requires 0 <= i < |v.children| => InstanceCount(v.children[i]));
    var ps := seq(|Subs(p)|, i requires 0 <= i < |Subs(p)| => PropsSize(Subs(p)[i]));
    forall i | 0 <= i < |vs|
      ensures vs[i] == ps[i]
    {
      MountAsCount(Subs(p)[i], false, postId);
    }
    if ChildrenShown(p) {
      SumPointwise(vs, ps);
    } else {
      assert Subs(p) == [];
    }
  }

  /**
   * On the post page each top-level reply mounts itself and its direct
   * replies only: the grandchildren the tree may hold are never shown.
   */
  lemma PostPageMounts(t: ReplyTree, ctx: PageContext)
    ensures InstanceCount(Mount(ToReplyProps(t, ctx))) == 1 + |t.children|
    ensures InstanceCount(Mount(ToReplyProps(t, ctx))) <= Size(Embed(t))
  {
    MountAsCount(ToReplyProps(t, ctx), true, Mount(ToReplyProps(t, ctx)).props.postId);
    ToReplyPropsCount(t, ctx);
  }
}

=== FILE: request.dfy ===
/**
 * A reply POST seen from its caller. The network, the HTTP status and the
 * response body are not modelled: the caller receives one abstract outcome.
 * Both pages turn a failed request into a message the same way: a non-OK
 * response throws an Error carrying the body's `message` or a fixed fallback,
 * and the catch block reports an Error's message, or the fallback for any
 * other thrown value.
 */
module Request {
  import opened Wrappers

  /** The fallback shown when the server gives no usable message. */
  const SubmitFailedMessage := "댓글 작성에 실패했습니다."

  /** A value a `catch` block can receive. */
  datatype Thrown = ErrorObject(message: string) | OtherValue

  /** How a request ended. */
  datatype Outcome =
    | Ok                              // `res.ok`
    | Fail(message: Option<string>)   // not OK; the body's `message`, if it has one
    | Threw(thrown: Thrown)           // the request or the body parse rejected

  /** JavaScript truthiness of an optional string. */
  predicate Truthy(s: Option<string>) {
    s.Some? && s.value != ""
  }

  /** `err.message || fallback`: the body's message when truthy, never empty. */
  function ServerMessage(message: Option<string>): (m: string)
    ensures m != ""
    ensures Truthy(message) ==> m == message.value
    ensures !Truthy(message) ==> m == SubmitFailedMessage
  {
    if Truthy(message) then message.value else SubmitFailedMessage
  }

  /** What the `try` block throws for a request that did not succeed. */
  function Raised(o: Outcome): Thrown
    requires !o.Ok?
  {
    match o
    case Fail(message) => ErrorObject(ServerMessage(message))
    case Threw(e) => e
  }

  /** `error instanceof Error ? error.message : fallback`. */
  function Caught(e: Thrown): string {
    match e
    case ErrorObject(m) => m
    case OtherValue => SubmitFailedMessage
  }

  /** The message reported for a request that did not succeed. */
  function FailureMessage(o: Outcome): (m: string)
    requires !o.Ok?
    ensures o.Fail? && Truthy(o.message) ==> m == o.message.value
    ensures o.Fail? && !Truthy(o.message) ==> m == SubmitFailedMessage
    ensures o.Threw? && o.thrown.ErrorObject? ==> m == o.thrown.message
    ensures o.Threw? && o.thrown.OtherValue? ==> m == SubmitFailedMessage
    ensures o.Fail? ==> m != ""
  {
    Caught(Raised(o))
  }
}

=== FILE: wrappers.dfy ===
/** Optional values, standing in for the source's `null`/`undefined`. */
module Wrappers {

  datatype Option<+T> = None | Some(value: T)
}
